=== FILE: README.md ===
# Dataset pagination and WolframAlpha response pruning, in Dafny

This project models two small pure pieces of the llama-stack providers:

- **Hugging Face dataset I/O** (`HuggingfaceDatasetIOImpl`): the provider's
  local dataset registry (`register_dataset`, `list_datasets`) and
  `get_rows_paginated`, which serves a page of rows from a dataset. The cursor
  (`page_token`) is the decimal text of a row offset. The page size
  `rows_in_page` is an int, and `-1` means "all remaining rows".
- **WolframAlpha tool runtime** (`WolframAlphaToolRuntimeImpl`): the API-key
  choice `_get_api_key`, and `_clean_wolfram_alpha_response`. The latter prunes
  the JSON answer of the query API before it is returned to the model.

Modules, one per concept:

- `Wrappers` (wrappers.dfy): `Option` and `Result`.
- `Decimal` (decimal.dfy): Python's `str(n)` and `int(s)` on ASCII digit text, with the interpreter's default limit of 4300 decimal digits on both conversions (`MaxStrDigits`), and `str.isnumeric` on ASCII.
- `DatasetRegistry` (registry.dfy): `dataset_infos`, an insertion-ordered dict from identifier to definition.
- `Pagination` (pagination.dfy): `get_rows_paginated`. The loaded dataset is a `seq<Row>`, and the loader is a function parameter.
- `JsonTree` (json.dfy): a JSON tree with opaque scalars and no floats. Objects are field lists in insertion order. It provides `d.get(k)`, the guarded `if k in d: del d[k]`, and `d[k] = v` on an existing key.
- `WolframAlpha` (wolfram.dfy): the key choice, the removal schedule, the step-by-step cleaning, and a reference definition grouped by effect, proved equal to the cleaning.

The cleaning is modelled as the source runs it. A fixed schedule of steps is
visited in order:

1. the fourteen top-level keys;
2. the nested pods entry;
3. `assumptions`.

Each step sits in its own `try ... except KeyError: pass`, so a step that
raises leaves the response as the earlier steps left it (`RunSteps`). The
special `assumptions` branch has the same effect as the generic removal
branch, so both are modelled as `RemoveKey`.

Facts about the code that the model keeps as written:

- Any digit string of at most 4300 characters is accepted as a cursor; a longer one passes `isnumeric` but `int` refuses it with `ValueError` (`OverlongTokenRefused`). A start past the end gives an empty page. For page sizes of at least -1 the token is then the text of the dataset length (`EmptyAtEnd`); for smaller page sizes it is the text of `min(start + rows_in_page, L)`, which can lie below `L` or be negative.
- Any int is accepted as a page size. A page size below -1 can push `end` below zero, and the token emitted then fails the next call's digit check (`NegativeEndTokenRejected`). Repeating the last call at the end of the dataset gives the same page only for page sizes of at least -1.
- The count returned is `len(rows)`, which is 0 when `end < start`.
- An unknown dataset identifier raises `KeyError` from the dict lookup before the token is examined. The model calls this error `UnknownDataset`.

## Model

| member | source | states |
|---|---|---|
| DatasetRegistry.Lookup | llama_stack/providers/adapters/datasetio/huggingface/huggingface.py:58 | `dataset_infos[id]` finds a definition exactly when the identifier is registered, and that definition carries the identifier |
| DatasetRegistry.Register | llama_stack/providers/adapters/datasetio/huggingface/huggingface.py:42-46 | registering makes lookups of its identifier return the new definition; lookups of every other identifier are unchanged; a new identifier is appended at the end; an existing one is replaced in its original position; identifiers stay unique |
| DatasetRegistry.ListDatasets | llama_stack/providers/adapters/datasetio/huggingface/huggingface.py:48-49 | the listing has one entry per registered identifier, and a definition is listed exactly when a lookup of its identifier returns it |
| DatasetRegistry.EmptyRegistryFresh | llama_stack/providers/adapters/datasetio/huggingface/huggingface.py:35 | the registry a provider starts with, `dataset_infos = {}`, is valid, registers nothing and lists nothing, so `Register` can be applied to it |
| DatasetRegistry.ListingAfterRegister | llama_stack/providers/adapters/datasetio/huggingface/huggingface.py:42-49 | after registering, the listing holds the new definition, holds no other definition under that identifier, and still holds every definition under other identifiers; a new identifier is listed last after the earlier listing, unchanged; a re-registered identifier keeps its place, with only that entry replaced |
| Decimal.NatToString | llama_stack/providers/adapters/datasetio/huggingface/huggingface.py:80 | `str(end)` of a non-negative int is non-empty, all digits, and has no leading zero unless it is "0" |
| Decimal.ParseShow | llama_stack/providers/adapters/datasetio/huggingface/huggingface.py:67-80 | `int(str(n)) == n`: the emitted token reads back as the offset it encodes |
| Decimal.ShowParse | llama_stack/providers/adapters/datasetio/huggingface/huggingface.py:61-67 | for canonical digit text, `str(int(s)) == s`, so canonical tokens and offsets are in bijection |
| Decimal.LeadingZeroIgnored | llama_stack/providers/adapters/datasetio/huggingface/huggingface.py:67 | a leading zero does not change the value `int` reads |
| Decimal.IntToStringNumeric | llama_stack/providers/adapters/datasetio/huggingface/huggingface.py:80 | the text of an int passes `isnumeric` exactly when the int is non-negative |
| Decimal.DigitCount | llama_stack/providers/adapters/datasetio/huggingface/huggingface.py:67-80 | `str(n)` has at most `k` digits exactly when `n < 10^k`, so the digit limit admits exactly the ints below `10^4300` in magnitude |
| Pagination.PageEnd | llama_stack/providers/adapters/datasetio/huggingface/huggingface.py:70-73 | with -1 `end` is the dataset length; otherwise `end` is `min(start + rows_in_page, L)`: at most both arguments and equal to one of them |
| Pagination.Slice | llama_stack/providers/adapters/datasetio/huggingface/huggingface.py:75 | the rows are the dataset's rows from `start` on, in order, `end - start` of them, or none when `end <= start` |
| Pagination.Paginate | llama_stack/providers/adapters/datasetio/huggingface/huggingface.py:61-81 | fails exactly when the token is present, non-empty and not all digits (the invalid-token error), or is digit text longer than 4300 characters, or `end` has more than 4300 digits (the digit-limit error); on success `total_count` is the number of rows returned, the rows are consecutive dataset rows from the start offset, and the next token is the text of `end` |
| Pagination.GetRowsPaginated | llama_stack/providers/adapters/datasetio/huggingface/huggingface.py:51-62 | an unknown dataset identifier fails with the lookup error whatever the token; a known one paginates the rows its definition loads to, so it then fails only as `Paginate` does, on a rejected token or the digit limit |
| Pagination.PageAtOffset | llama_stack/providers/adapters/datasetio/huggingface/huggingface.py:64-81 | for every offset `s <= L` and page size `p >= 0`, with `L` of at most 4300 digits, the page at token `str(s)` is rows `[s, min(s+p, L))`, the count is their number, and the next token is `str(min(s+p, L))` |
| Pagination.AllRemainingPage | llama_stack/providers/adapters/datasetio/huggingface/huggingface.py:70-71 | with page size -1 and `L` of at most 4300 digits, the page is every row from the offset to the end, and the next token is `str(L)` |
| Pagination.NoTokenStartsAtZero | llama_stack/providers/adapters/datasetio/huggingface/huggingface.py:64-65 | an absent token, an empty token and "0" give the same page |
| Pagination.LeadingZeroSamePage | llama_stack/providers/adapters/datasetio/huggingface/huggingface.py:66-67 | a numeric token of fewer than 4300 digits gives the same page with a leading zero as without it; at 4300 digits or more the leading zero takes it past the limit and the call fails with the digit-limit error |
| Pagination.OverlongTokenRefused | llama_stack/providers/adapters/datasetio/huggingface/huggingface.py:66-67 | an all-digit token longer than 4300 characters, such as 4301 ones, passes the digit check but is refused by `int`, whatever the dataset and page size |
| Pagination.NextTokenBounded | llama_stack/providers/adapters/datasetio/huggingface/huggingface.py:70-80 | a next token that reads as a number is at most the dataset length; for page sizes of at least -1 it always reads as a number |
| Pagination.EmptyAtEnd | llama_stack/providers/adapters/datasetio/huggingface/huggingface.py:67-81 | at or past the end of the dataset, for page sizes of at least -1, an offset of at most 4300 digits gives an empty page and the next token `str(L)`, so repeating the call with it gives the same result; a longer offset fails with the digit-limit error |
| Pagination.NegativeEndTokenRejected | llama_stack/providers/adapters/datasetio/huggingface/huggingface.py:61-80 | a page size below -1 that drives `end` below zero succeeds exactly when the token and `end` are within the digit limit, and then yields an empty page whose next token the following call rejects as invalid |
| Pagination.FirstPageOfThree | llama_stack/providers/tests/eval/test_eval.py:61-65 | any dataset of at least three rows, read with page size 3 and no token, gives its first three rows, count 3 (not the dataset's length), and next token "3" |
| Pagination.ReadAllPages | llama_stack/providers/adapters/datasetio/huggingface/huggingface.py:64-81 | for a dataset whose length has at most 4300 digits, a client starting with no token and following `next_page_token` with a fixed positive page size until it receives an empty page reads exactly the whole dataset, in order, each row once |
| WolframAlpha.GetApiKey | llama_stack/providers/remote/tool_runtime/wolfram_alpha/wolfram_alpha.py:42-51 | a non-empty configured key is returned; otherwise the non-empty key from the provider data; the call fails with the fixed message exactly when neither is non-empty; a returned key is never empty |
| JsonTree.Delete | llama_stack/providers/remote/tool_runtime/wolfram_alpha/wolfram_alpha.py:142-143 | the guarded `if k in d: del d[k]` leaves no field `k`; every other key keeps its value and the surviving keys keep their order; on a dict with unique keys it cuts out exactly the one field named `k`; an absent key changes nothing; keys stay unique |
| JsonTree.DeleteAll | llama_stack/providers/remote/tool_runtime/wolfram_alpha/wolfram_alpha.py:139-141 | deleting a list of keys, each only if present, leaves none of them; every key not listed keeps its value; the surviving keys are the original keys with the listed ones filtered out, in their original order |
| WolframAlpha.FindResultPod | llama_stack/providers/remote/tool_runtime/wolfram_alpha/wolfram_alpha.py:129-136 | the scan returns the index of a pod titled "Result" before which every pod is titled and not "Result"; or none, when every pod is titled and not "Result"; or `KeyError("title")` at an untitled pod before which the same holds |
| WolframAlpha.FindResultPodComplete | llama_stack/providers/remote/tool_runtime/wolfram_alpha/wolfram_alpha.py:129-136 | the converse: the first pod that is untitled or titled "Result" decides the scan's outcome |
| WolframAlpha.StripPods | llama_stack/providers/remote/tool_runtime/wolfram_alpha/wolfram_alpha.py:137-141 | the pods keep their number and order; every pod loses each listed key, keeps every other key's value, and keeps its surviving keys in their original order |
| WolframAlpha.PruneQueryPods | llama_stack/providers/remote/tool_runtime/wolfram_alpha/wolfram_alpha.py:127-141 | the pods entry raises exactly when `pods` is absent or the scan raises; otherwise `queryresult` keeps its keys in order and only `pods` changes, to the truncated and stripped list |
| WolframAlpha.ApplyStep | llama_stack/providers/remote/tool_runtime/wolfram_alpha/wolfram_alpha.py:121-143 | a step raises exactly when `queryresult` is missing, or for the pods entry when that entry raises; a step that succeeds keeps the response walkable, keeps its keys in order and changes no key but `queryresult` |
| WolframAlpha.RunSteps | llama_stack/providers/remote/tool_runtime/wolfram_alpha/wolfram_alpha.py:121-145 | running steps, each in its own `try ... except KeyError: pass`, keeps the response walkable, keeps its keys in order and changes no key but `queryresult` |
| WolframAlpha.Clean | llama_stack/providers/remote/tool_runtime/wolfram_alpha/wolfram_alpha.py:89-146 | cleaning keeps the response walkable, keeps its top-level keys in their order, and changes the value of no key but `queryresult` (its equality with the reference definition is `CleanMatchesSpec`) |
| WolframAlpha.CleanQuery | llama_stack/providers/remote/tool_runtime/wolfram_alpha/wolfram_alpha.py:90-143 | the reference cleaning of `queryresult`: every listed top-level key and `assumptions` is absent, every other key except `pods` keeps its value, and the surviving keys are the original keys with the listed ones and `assumptions` filtered out, in their original order |
| WolframAlpha.RemovalPhase | llama_stack/providers/remote/tool_runtime/wolfram_alpha/wolfram_alpha.py:121-145 | a run of key-removal steps deletes exactly those keys from `queryresult` and replaces nothing else |
| WolframAlpha.CleanMatchesSpec | llama_stack/providers/remote/tool_runtime/wolfram_alpha/wolfram_alpha.py:89-146 | the cleaning, run step by step with every `KeyError` swallowed per step, equals the reference definition `CleanSpec`: a response without `queryresult` is unchanged; otherwise only `queryresult` is replaced, by `CleanQuery` of it |
| WolframAlpha.CleanWithoutQueryResult | llama_stack/providers/remote/tool_runtime/wolfram_alpha/wolfram_alpha.py:121-146 | a response without `queryresult` is returned unchanged |
| WolframAlpha.CleanTouchesOnlyQueryResult | llama_stack/providers/remote/tool_runtime/wolfram_alpha/wolfram_alpha.py:89-146 | the response keeps its keys in order, every key other than `queryresult` keeps its value, and `queryresult` is present afterwards exactly when it was before |
| WolframAlpha.CleanRemovesListedKeys | llama_stack/providers/remote/tool_runtime/wolfram_alpha/wolfram_alpha.py:90-126 | after cleaning, none of the fourteen listed keys nor `assumptions` is in `queryresult`, whatever happened to the pods |
| WolframAlpha.CleanKeepsOtherQueryKeys | llama_stack/providers/remote/tool_runtime/wolfram_alpha/wolfram_alpha.py:121-143 | every `queryresult` key that is not listed and is not `pods` keeps its value, and the keys of the cleaned `queryresult` are its original keys with the listed ones and `assumptions` filtered out, in their original order |
| WolframAlpha.CleanedPods | llama_stack/providers/remote/tool_runtime/wolfram_alpha/wolfram_alpha.py:127-145 | `pods` is present after cleaning exactly when it was before; it holds the pruned list, or its original value when the pods entry raised |
| WolframAlpha.CleanTruncatesAtFirstResult | llama_stack/providers/remote/tool_runtime/wolfram_alpha/wolfram_alpha.py:129-141 | when the scan reaches a pod titled "Result" at index i, the cleaned pods are pods 0..i, in order, each stripped |
| WolframAlpha.CleanKeepsPodsWithoutResult | llama_stack/providers/remote/tool_runtime/wolfram_alpha/wolfram_alpha.py:129-141 | when every pod is titled and none is "Result", the cleaned pods are all the pods, in order, each stripped |
| WolframAlpha.CleanSkipsPodsAtUntitled | llama_stack/providers/remote/tool_runtime/wolfram_alpha/wolfram_alpha.py:129-145 | when an untitled pod is reached before any "Result" pod, `pods` is left exactly as it was: no truncation and no stripping |
| WolframAlpha.StripKeepsScan | llama_stack/providers/remote/tool_runtime/wolfram_alpha/wolfram_alpha.py:129-141 | stripping keys other than the title does not change what the truncation scan finds |
| WolframAlpha.PrunedPodsStable | llama_stack/providers/remote/tool_runtime/wolfram_alpha/wolfram_alpha.py:129-141 | pruning an already pruned pods list changes nothing |
| WolframAlpha.CleanIdempotent | llama_stack/providers/remote/tool_runtime/wolfram_alpha/wolfram_alpha.py:89-146 | cleaning a cleaned response changes nothing |

## Left out

- `load_hf_dataset` and `get_dataframe_from_url` (library and network loading) are not modelled. The loader is the function parameter `load`, and its `ValueError` on a failed fetch is not modelled.
- The `filter_condition` parameter of `get_rows_paginated` is not modelled, because the source never reads it.
- Decimal.MaxStrDigits: the digit limit is fixed at the interpreter's default of 4300. A limit changed through `sys.set_int_max_str_digits` or `PYTHONINTMAXSTRDIGITS`, or an interpreter older than 3.10.7 without the limit, is not modelled.
- Tokens are modelled as ASCII text. For non-ASCII tokens the source differs from the model in two ways. Unicode decimal digits (such as '٣' or '１２') pass `isnumeric`, and `int` reads them, so the source serves that offset where the model reports an invalid token. Other numeric characters (such as '²' or '½') pass `isnumeric`, but `int` rejects them with its own `ValueError`.
- `invoke_tool` is not modelled: it is an HTTP request and `json.dumps` of the tree. So are `list_runtime_tools`, `initialize`, `register_tool`, `unregister_tool` and `shutdown`, which are constants or no-ops.
- `get_request_provider_data` (request headers) becomes the `providerData` parameter of `GetApiKey`.
- WolframAlpha.Clean: it requires a well-shaped response:
  - the response is a dict;
  - `queryresult`, if present, is a dict;
  - `pods`, if present, is a list of dicts.

  Other shapes are outside the model. In the source their outcome depends on the shape:
  - A `pods` that is a non-empty JSON object makes `pods[0]` raise `KeyError`, because JSON object keys are strings. The handler swallows it and `pods` is left unchanged.
  - A pod that is not a dict and is reached by the title scan raises an uncaught `TypeError`.
  - A non-dict `queryresult` follows Python's `in` and `del` for its type; for example, a number raises `TypeError` at the first `in` test.
  - Pods after an untitled dict pod are never touched, because the `KeyError` at that pod ends the pods step first.

  The response and `queryresult` must also have distinct keys, as every Python dict has.
- WolframAlpha.Clean: it returns a new tree. The source mutates its argument in place and returns it; aliasing is not modelled.
- async/await is not modelled; every operation is a pure function.
- The evaluation orchestrator (`evaluate_rows`, `run_eval`, `job_status`, `job_result`, task registration) is not modelled, and neither are the pytest fixtures in `fixtures.py`.
- DatasetRegistry.ListDatasets: its own contract states the count and the membership of the listing. The insertion order is stated registration by registration in `ListingAfterRegister`, because a single registry value carries no history to compare the order against.

=== FILE: decimal.dfy ===
/** Decimal text of integers as Python writes and reads it: `str(n)` for an
    int and `int(s)` for a string of ASCII digits, with the interpreter's
    limit on the number of decimal digits either conversion accepts. */
module Decimal {

  predicate IsDigit(c: char) {
    '0' <= c <= '9'
  }

  predicate AllDigits(s: string) {
    forall i :: 0 <= i < |s| ==> IsDigit(s[i])
  }

  /** `s.isnumeric()` for ASCII text: non-empty and every character a digit. */
  predicate IsNumeric(s: string) {
    |s| > 0 && AllDigits(s)
  }

  function DigitValue(c: char): (d: nat)
    requires IsDigit(c)
    ensures d < 10
  {
    c as int - '0' as int
  }

  function DigitChar(d: nat): (c: char)
    requires d < 10
    ensures IsDigit(c) && DigitValue(c) == d
  {
    ('0' as int + d) as char
  }

  /** `int(s)` for a string of digits; leading zeros are allowed. */
  function DigitsValue(s: string): nat
    requires AllDigits(s)
  {
    if s == [] then 0
    else DigitsValue(s[..|s| - 1]) * 10 + DigitValue(s[|s| - 1])
  }

  /** Canonical decimal text: no leading zero except the text "0" itself. */
  predicate Canonical(s: string) {
    IsNumeric(s) && (s[0] != '0' || |s| == 1)
  }

  /** `str(n)` for a non-negative int. */
  function NatToString(n: nat): (s: string)
    ensures Canonical(s)
  {
    if n < 10 then [DigitChar(n)]
    else NatToString(n / 10) + [DigitChar(n % 10)]
  }

  /** `str(i)` for any int: a minus sign before the digits of a negative value. */
  function IntToString(i: int): string
  {
    if i < 0 then "-" + NatToString(-i) else NatToString(i)
  }

  /** Reading back what `str` wrote gives the original number. */
  lemma {:induction false} ParseShow(n: nat)
    ensures DigitsValue(NatToString(n)) == n
  {
    var s := NatToString(n);
    if n < 10 {
      assert s[..|s| - 1] == [];
    } else {
      assert s[..|s| - 1] == NatToString(n / 10);
      ParseShow(n / 10);
    }
  }

  lemma {:induction false} LeadingNonZeroPositive(s: string)
    requires IsNumeric(s) && s[0] != '0'
    ensures DigitsValue(s) > 0
  {
    if |s| > 1 {
      LeadingNonZeroPositive(s[..|s| - 1]);
    }
  }

  /** Writing back what `int` read gives the original text, when that text
      is canonical; so canonical text and naturals are in bijection. */
  lemma {:induction false} ShowParse(s: string)
    requires Canonical(s)
    ensures NatToString(DigitsValue(s)) == s
  {
    if |s| > 1 {
      var p := s[..|s| - 1];
      LeadingNonZeroPositive(p);
      ShowParse(p);
      assert s == p + [s[|s| - 1]];
    }
  }

  /** `int` ignores a leading zero: "0" + s reads as s does. */
  lemma {:induction false} LeadingZeroIgnored(s: string)
    requires AllDigits(s)
    ensures AllDigits("0" + s) && DigitsValue("0" + s) == DigitsValue(s)
  {
    if s != [] {
      var p := s[..|s| - 1];
      assert ("0" + s)[..|"0" + s| - 1] == "0" + p;
      LeadingZeroIgnored(p);
    }
  }

  /** The text of an int is numeric exactly when the int is non-negative. */
  lemma IntToStringNumeric(i: int)
    ensures IsNumeric(IntToString(i)) <==> i >= 0
    ensures i >= 0 ==> IntToString(i) == NatToString(i)
  {
    if i < 0 {
      assert IntToString(i)[0] == '-';
    }
  }

  /** The default of `sys.get_int_max_str_digits()` (CPython 3.11 and
      later, and 3.10.7 on): `int(s)` refuses text of more digits than
      this, and `str(i)` refuses an int of more digits, the sign not
      counted, with `ValueError`. */
  const MaxStrDigits: nat := 4300

  /** `int(s)` for digit text `s` stays within the digit limit. */
  predicate ParseFits(s: string) {
    |s| <= MaxStrDigits
  }

  /** `str(i)` stays within the digit limit. */
  predicate ShowFits(i: int) {
    |NatToString(if i < 0 then -i else i)| <= MaxStrDigits
  }

  function Pow10(k: nat): (p: nat)
    ensures p >= 1
  {
    if k == 0 then 1 else 10 * Pow10(k - 1)
  }

  /** `str(n)` has at most `k` digits exactly when `n < 10^k`. */
  lemma {:induction false} DigitCount(n: nat, k: nat)
    requires k >= 1
    ensures |NatToString(n)| <= k <==> n < Pow10(k)
  {
    if n >= 10 {
      assert |NatToString(n)| == |NatToString(n / 10)| + 1;
      assert n == 10 * (n / 10) + n % 10 && n % 10 < 10;
      if k == 1 {
        assert Pow10(1) == 10;
      } else {
        DigitCount(n / 10, k - 1);
        assert Pow10(k) == 10 * Pow10(k - 1);
      }
    } else if k > 1 {
      assert Pow10(k) == 10 * Pow10(k - 1);
    }
  }

  /** A smaller natural has no more digits. */
  lemma DigitsMonotone(a: nat, b: nat)
    requires a <= b
    ensures |NatToString(a)| <= |NatToString(b)|
  {
    var k := |NatToString(b)|;
    DigitCount(b, k);
    DigitCount(a, k);
  }
}

=== FILE: json.dfy ===
/** A JSON-like tree as returned by `response.json()`: scalars are opaque
    (no floats), objects are field lists in insertion order. Only the dict
    operations the pruning uses are defined: lookup, the guarded
    `if k in d: del d[k]`, and `d[k] = v` on an existing key. */
module JsonTree {
  import opened Wrappers

  datatype Json =
    | JNull
    | JBool(b: bool)
    | JInt(i: int)
    | JStr(s: string)
    | JArr(items: seq<Json>)
    | JObj(fields: seq<(string, Json)>)

  type Fields = seq<(string, Json)>

  /** `d.get(k)`: the value of the first field named `k`. */
  function Get(fs: Fields, k: string): (r: Option<Json>)
    ensures r.None? <==> forall i :: 0 <= i < |fs| ==> fs[i].0 != k
  {
    if fs == [] then None
    else if fs[0].0 == k then Some(fs[0].1)
    else Get(fs[1..], k)
  }

  /** `k in d`. */
  predicate HasKey(fs: Fields, k: string) {
    Get(fs, k).Some?
  }

  /** Dict keys are unique. */
  predicate UniqueKeys(fs: Fields) {
    forall i, j :: 0 <= i < j < |fs| ==> fs[i].0 != fs[j].0
  }

  function Keys(fs: Fields): (ks: seq<string>)
    ensures |ks| == |fs|
    ensures forall i :: 0 <= i < |fs| ==> ks[i] == fs[i].0
  {
    if fs == [] then [] else [fs[0].0] + Keys(fs[1..])
  }

  /** The keys `ks` with every key listed in `drop` filtered out; the
      keys that stay keep their order. */
  function Without(ks: seq<string>, drop: seq<string>): seq<string> {
    if ks == [] then []
    else if ks[0] in drop then Without(ks[1..], drop)
    else [ks[0]] + Without(ks[1..], drop)
  }

  /** A key survives the filter exactly when it was there and is not
      dropped. */
  lemma {:induction false} WithoutMembers(ks: seq<string>, drop: seq<string>, x: string)
    ensures x in Without(ks, drop) <==> x in ks && x !in drop
  {
    if ks != [] {
      WithoutMembers(ks[1..], drop, x);
      assert ks == [ks[0]] + ks[1..];
    }
  }

  /** Filtering twice is filtering once by both lists. */
  lemma {:induction false} WithoutWithout(ks: seq<string>, a: seq<string>, b: seq<string>)
    ensures Without(Without(ks, a), b) == Without(ks, a + b)
  {
    if ks != [] {
      WithoutWithout(ks[1..], a, b);
      if ks[0] !in a {
        assert ([ks[0]] + Without(ks[1..], a))[1..] == Without(ks[1..], a);
      }
    }
  }

  /** The tail of a dict with unique keys has unique keys, none of them
      the head's. */
  lemma UniqueTail(fs: Fields)
    requires UniqueKeys(fs) && fs != []
    ensures UniqueKeys(fs[1..]) && !HasKey(fs[1..], fs[0].0)
  {
    assert forall i :: 0 <= i < |fs[1..]| ==> fs[1..][i] == fs[i + 1];
  }

  /** The guarded `if k in d: del d[k]`: the field named `k` disappears,
      the other fields keep their values and their order, and an absent
      key changes nothing. */
  function Delete(fs: Fields, k: string): (r: Fields)
    ensures !HasKey(r, k)
    ensures forall k' :: k' != k ==> Get(r, k') == Get(fs, k')
    ensures !HasKey(fs, k) ==> r == fs
    ensures UniqueKeys(fs) ==> UniqueKeys(r)
    ensures Keys(r) == Without(Keys(fs), [k])
    ensures UniqueKeys(fs) && HasKey(fs, k) ==>
      exists i :: 0 <= i < |fs| && fs[i].0 == k && r == fs[..i] + fs[i + 1..]
  {
    if fs == [] then []
    else
      var rest := Delete(fs[1..], k);
      DeleteCons(fs, k, rest);
      if fs[0].0 == k then rest else [fs[0]] + rest
  }

  /** Everything `Delete` promises, bundled so the step from a tail to
      its cons is one lemma. */
  ghost predicate DeleteSpec(fs: Fields, k: string, r: Fields) {
    && !HasKey(r, k)
    && (forall k' :: k' != k ==> Get(r, k') == Get(fs, k'))
    && (!HasKey(fs, k) ==> r == fs)
    && (UniqueKeys(fs) ==> UniqueKeys(r))
    && Keys(r) == Without(Keys(fs), [k])
    && (UniqueKeys(fs) && HasKey(fs, k) ==>
          exists i :: 0 <= i < |fs| && fs[i].0 == k && r == fs[..i] + fs[i + 1..])
  }

  lemma DeleteCons(fs: Fields, k: string, rest: Fields)
    requires fs != [] && DeleteSpec(fs[1..], k, rest)
    ensures DeleteSpec(fs, k, if fs[0].0 == k then rest else [fs[0]] + rest)
  {
    DeleteConsKeys(fs, k, rest);
    DeleteConsGet(fs, k, rest);
    if UniqueKeys(fs) {
      UniqueTail(fs);
      DeleteConsUnique(fs, k, rest);
    }
  }

  /** How lookups after `Delete` on a cons follow from those on its tail. */
  lemma DeleteConsGet(fs: Fields, k: string, rest: Fields)
    requires fs != [] && !HasKey(rest, k)
    requires forall k' :: k' != k ==> Get(rest, k') == Get(fs[1..], k')
    requires !HasKey(fs[1..], k) ==> rest == fs[1..]
    ensures var r := if fs[0].0 == k then rest else [fs[0]] + rest;
      && !HasKey(r, k)
      && (forall k' :: k' != k ==> Get(r, k') == Get(fs, k'))
      && (!HasKey(fs, k) ==> r == fs)
  {
    if fs[0].0 != k {
      assert ([fs[0]] + rest)[1..] == rest;
    }
  }

  /** How the keys of `Delete` on a cons follow from those on its tail. */
  lemma DeleteConsKeys(fs: Fields, k: string, rest: Fields)
    requires fs != [] && Keys(rest) == Without(Keys(fs[1..]), [k])
    ensures Keys(if fs[0].0 == k then rest else [fs[0]] + rest) == Without(Keys(fs), [k])
  {
    assert Keys(fs)[1..] == Keys(fs[1..]);
    if fs[0].0 != k {
      assert ([fs[0]] + rest)[1..] == rest;
    }
  }

  /** How `Delete` on a cons of a dict with unique keys follows from
      `Delete` on its tail. */
  lemma DeleteConsUnique(fs: Fields, k: string, rest: Fields)
    requires fs != [] && UniqueKeys(fs) && !HasKey(fs[1..], fs[0].0)
    requires !HasKey(rest, k) && UniqueKeys(rest)
    requires forall k' :: k' != k ==> Get(rest, k') == Get(fs[1..], k')
    requires !HasKey(fs[1..], k) ==> rest == fs[1..]
    requires HasKey(fs[1..], k) ==>
      exists i :: 0 <= i < |fs[1..]| && fs[1..][i].0 == k && rest == fs[1..][..i] + fs[1..][i + 1..]
    ensures var r := if fs[0].0 == k then rest else [fs[0]] + rest;
      && UniqueKeys(r)
      && (HasKey(fs, k) ==> exists i :: 0 <= i < |fs| && fs[i].0 == k && r == fs[..i] + fs[i + 1..])
  {
    if fs[0].0 == k {
      assert rest == fs[..0] + fs[1..];
    } else {
      assert !HasKey(rest, fs[0].0);
      UniqueCons(fs[0], rest);
      if HasKey(fs, k) {
        SpliceCons(fs, k, rest);
      }
    }
  }

  /** A field whose key is new to a dict with unique keys can go in
      front. */
  lemma UniqueCons(f: (string, Json), fs: Fields)
    requires UniqueKeys(fs) && !HasKey(fs, f.0)
    ensures UniqueKeys([f] + fs)
  {
    assert forall i :: 0 < i <= |fs| ==> ([f] + fs)[i] == fs[i - 1];
  }

  /** Consing a field onto the tail with one field cut out is the whole
      dict with that field cut out. */
  lemma SpliceCons(fs: Fields, k: string, rest: Fields)
    requires fs != [] && fs[0].0 != k
    requires exists j :: 0 <= j < |fs[1..]| && fs[1..][j].0 == k && rest == fs[1..][..j] + fs[1..][j + 1..]
    ensures exists i :: 0 <= i < |fs| && fs[i].0 == k && [fs[0]] + rest == fs[..i] + fs[i + 1..]
  {
    var j :| 0 <= j < |fs[1..]| && fs[1..][j].0 == k && rest == fs[1..][..j] + fs[1..][j + 1..];
    assert fs[1..][..j] == fs[1..j + 1] && fs[1..][j + 1..] == fs[j + 2..];
    assert [fs[0]] + rest == fs[..j + 1] + fs[j + 2..];
  }

  /** Filtering out keys that are not there changes nothing. */
  lemma {:induction false} WithoutAbsent(ks: seq<string>, drop: seq<string>)
    requires forall x :: x in drop ==> x !in ks
    ensures Without(ks, drop) == ks
  {
    if ks != [] {
      WithoutAbsent(ks[1..], drop);
    }
  }

  /** `d[k] = v` where `k` is already a key: the value changes in place,
      the key order does not. */
  function Put(fs: Fields, k: string, v: Json): (r: Fields)
    ensures |r| == |fs|
    ensures forall i :: 0 <= i < |fs| ==> r[i].0 == fs[i].0
    ensures forall i :: 0 <= i < |fs| ==> r[i].1 == if fs[i].0 == k then v else fs[i].1
    ensures UniqueKeys(fs) ==> UniqueKeys(r)
  {
    seq(|fs|, i requires 0 <= i < |fs| => if fs[i].0 == k then (k, v) else fs[i])
  }

  /** After `d[k] = v` a lookup of `k` finds `v` (when `k` was a key), and a
      lookup of any other key finds what it found before. */
  lemma {:induction false} PutGet(fs: Fields, k: string, v: Json)
    ensures Get(Put(fs, k, v), k) == if HasKey(fs, k) then Some(v) else None
    ensures forall k' :: k' != k ==> Get(Put(fs, k, v), k') == Get(fs, k')
  {
    if fs != [] {
      assert Put(fs, k, v)[1..] == Put(fs[1..], k, v);
      PutGet(fs[1..], k, v);
    }
  }

  /** Assigning a value never changes the keys or their order. */
  lemma PutKeys(fs: Fields, k: string, v: Json)
    ensures Keys(Put(fs, k, v)) == Keys(fs)
  {
    assert forall i :: 0 <= i < |fs| ==> Keys(Put(fs, k, v))[i] == Keys(fs)[i];
  }

  /** Assigning a key twice keeps the last value. */
  lemma PutPut(fs: Fields, k: string, v: Json, w: Json)
    ensures Put(Put(fs, k, v), k, w) == Put(fs, k, w)
  {
  }

  /** Assigning a key the value it already has changes nothing. */
  lemma {:induction false} PutSame(fs: Fields, k: string, v: Json)
    requires UniqueKeys(fs)
    requires Get(fs, k) == Some(v)
    ensures Put(fs, k, v) == fs
  {
    if fs[0].0 == k {
      assert forall i :: 0 <= i < |fs[1..]| ==> fs[1..][i].0 != k by {
        forall i | 0 <= i < |fs[1..]| ensures fs[1..][i].0 != k {
          assert fs[1..][i] == fs[i + 1];
        }
      }
      PutAbsent(fs[1..], k, v);
    } else {
      PutSame(fs[1..], k, v);
    }
  }

  lemma PutAbsent(fs: Fields, k: string, v: Json)
    requires !HasKey(fs, k)
    ensures Put(fs, k, v) == fs
  {
  }

  /** The removal loop `for k in ks: if k in d: del d[k]`. */
  function DeleteAll(fs: Fields, ks: seq<string>): (r: Fields)
    ensures forall k :: k in ks ==> !HasKey(r, k)
    ensures forall k :: k !in ks ==> Get(r, k) == Get(fs, k)
    ensures (forall k :: k in ks ==> !HasKey(fs, k)) ==> r == fs
    ensures UniqueKeys(fs) ==> UniqueKeys(r)
    ensures Keys(r) == Without(Keys(fs), ks)
    decreases |ks|
  {
    if ks == [] then WithoutAbsent(Keys(fs), ks); fs
    else
      WithoutWithout(Keys(fs), [ks[0]], ks[1..]);
      assert [ks[0]] + ks[1..] == ks;
      DeleteAll(Delete(fs, ks[0]), ks[1..])
  }
}

=== FILE: pagination.dfy ===
/** `get_rows_paginated` of the Hugging Face dataset provider: offset-cursor
    pagination over the rows of a registered dataset. The cursor is the
    decimal text of a row offset; the dataset loader is a parameter. */
module Pagination {
  import opened Wrappers
  import opened Decimal
  import opened DatasetRegistry

  datatype PageError =
    | UnknownDataset(datasetId: string)  // KeyError from the registry lookup
    | InvalidPageToken                   // ValueError("Invalid page_token")
    | DigitLimitExceeded                 // ValueError from `int` or `str` past MaxStrDigits

  datatype PaginatedRows<Row> = PaginatedRows(rows: seq<Row>, totalCount: int, nextPageToken: string)

  /** The `rows_in_page` value that asks for every remaining row. */
  const AllRemaining: int := -1

  function Min(a: int, b: int): int {
    if a <= b then a else b
  }

  /** The token check: a present, non-empty token must be all digits. */
  predicate TokenAccepted(token: Option<string>) {
    token.None? || token.value == "" || IsNumeric(token.value)
  }

  /** `int(page_token)` stays within the digit limit. */
  predicate TokenFits(token: Option<string>) {
    token.None? || ParseFits(token.value)
  }

  /** The start offset an accepted token denotes: absent or empty means 0. */
  function StartOffset(token: Option<string>): nat
    requires TokenAccepted(token)
  {
    if token.None? || |token.value| == 0 then 0 else DigitsValue(token.value)
  }

  /** The exclusive end of the page; never past the dataset's end. */
  function PageEnd(start: nat, rowsInPage: int, len: nat): (end: int)
    ensures end <= len
    ensures rowsInPage == AllRemaining ==> end == len
    ensures rowsInPage != AllRemaining ==> end <= start + rowsInPage
    ensures rowsInPage != AllRemaining ==> end == start + rowsInPage || end == len
  {
    if rowsInPage == AllRemaining then len else Min(start + rowsInPage, len)
  }

  /** `[loaded_dataset[i] for i in range(start, end)]`. */
  function Slice<Row>(ds: seq<Row>, start: nat, end: int): (rows: seq<Row>)
    requires end <= |ds|
    ensures |rows| == if start < end then end - start else 0
    ensures forall i :: 0 <= i < |rows| ==> rows[i] == ds[start + i]
  {
    if start < end then ds[start..end] else []
  }

  /** One page of an already loaded dataset. */
  function Paginate<Row>(ds: seq<Row>, rowsInPage: int, token: Option<string>): (r: Result<PaginatedRows<Row>, PageError>)
    ensures r.Failure? <==>
      || !TokenAccepted(token)
      || !TokenFits(token)
      || !ShowFits(PageEnd(StartOffset(token), rowsInPage, |ds|))
    ensures r.Failure? ==> (r.error == InvalidPageToken <==> !TokenAccepted(token))
    ensures r.Failure? ==> r.error in {InvalidPageToken, DigitLimitExceeded}
    ensures r.Success? ==>
      var start := StartOffset(token);
      var end := PageEnd(start, rowsInPage, |ds|);
      && r.value.totalCount == |r.value.rows|
      && r.value.nextPageToken == IntToString(end)
      && |r.value.rows| == (if start < end then end - start else 0)
      && (forall i :: 0 <= i < |r.value.rows| ==> r.value.rows[i] == ds[start + i])
  {
    if token.Some? && token.value != "" && !IsNumeric(token.value) then
      Failure(InvalidPageToken)
    else if token.Some? && !ParseFits(token.value) then
      Failure(DigitLimitExceeded)
    else
      var start := StartOffset(token);
      var end := PageEnd(start, rowsInPage, |ds|);
      var rows := Slice(ds, start, end);
      if !ShowFits(end) then Failure(DigitLimitExceeded)
      else Success(PaginatedRows(rows, |rows|, IntToString(end)))
  }

  /** `get_rows_paginated`: look the dataset up, load it, then paginate. An
      unknown identifier is reported before the token is examined. */
  function GetRowsPaginated<Row>(reg: Registry, load: DatasetDef -> seq<Row>, datasetId: string,
                                 rowsInPage: int, pageToken: Option<string>): (r: Result<PaginatedRows<Row>, PageError>)
    ensures !Registered(reg, datasetId) ==> r == Failure(UnknownDataset(datasetId))
    ensures Registered(reg, datasetId) ==> r == Paginate(load(Lookup(reg, datasetId).value), rowsInPage, pageToken)
  {
    match Lookup(reg, datasetId)
    case None => Failure(UnknownDataset(datasetId))
    case Some(def) => Paginate(load(def), rowsInPage, pageToken)
  }

  /** For every valid offset s and page size p >= 0, the page at "str(s)" is
      exactly rows [s, min(s + p, L)) and the next token is the text of
      min(s + p, L). */
  lemma PageAtOffset<Row>(ds: seq<Row>, rowsInPage: nat, s: nat)
    requires s <= |ds| && ShowFits(|ds|)
    ensures var end := Min(s + rowsInPage, |ds|);
      Paginate(ds, rowsInPage, Some(NatToString(s)))
        == Success(PaginatedRows(ds[s..end], end - s, NatToString(end)))
  {
    var end := Min(s + rowsInPage, |ds|);
    ParseShow(s);
    IntToStringNumeric(end);
    DigitsMonotone(s, |ds|);
    DigitsMonotone(end, |ds|);
    assert StartOffset(Some(NatToString(s))) == s;
    assert PageEnd(s, rowsInPage, |ds|) == end;
    assert Slice(ds, s, end) == ds[s..end];
  }

  /** With the sentinel page size the page is the whole remainder. */
  lemma AllRemainingPage<Row>(ds: seq<Row>, s: nat)
    requires s <= |ds| && ShowFits(|ds|)
    ensures Paginate(ds, AllRemaining, Some(NatToString(s)))
      == Success(PaginatedRows(ds[s..], |ds| - s, NatToString(|ds|)))
  {
    ParseShow(s);
    IntToStringNumeric(|ds|);
    DigitsMonotone(s, |ds|);
    assert ds[s..|ds|] == ds[s..];
  }

  /** An absent token, an empty token and the token "0" all start at row 0. */
  lemma NoTokenStartsAtZero<Row>(ds: seq<Row>, rowsInPage: int)
    ensures Paginate(ds, rowsInPage, None) == Paginate(ds, rowsInPage, Some(""))
    ensures Paginate(ds, rowsInPage, None) == Paginate(ds, rowsInPage, Some("0"))
  {
    assert DigitsValue("0") == 0 by {
      assert "0"[..0] == [];
    }
  }

  /** A leading zero in a token is ignored, unless it takes the token past
      the digit limit: `int` counts leading zeros too. */
  lemma LeadingZeroSamePage<Row>(ds: seq<Row>, rowsInPage: int, token: string)
    requires IsNumeric(token)
    ensures |token| < MaxStrDigits ==>
      Paginate(ds, rowsInPage, Some("0" + token)) == Paginate(ds, rowsInPage, Some(token))
    ensures |token| >= MaxStrDigits ==>
      Paginate(ds, rowsInPage, Some("0" + token)) == Failure(DigitLimitExceeded)
  {
    LeadingZeroIgnored(token);
  }

  /** A digit token longer than the limit is refused by `int` before any
      row is served; the 4301-digit token "11...1" is one. */
  lemma OverlongTokenRefused<Row>(ds: seq<Row>, rowsInPage: int, token: string)
    requires IsNumeric(token) && |token| > MaxStrDigits
    ensures Paginate(ds, rowsInPage, Some(token)) == Failure(DigitLimitExceeded)
    ensures Paginate(ds, rowsInPage, Some(seq(MaxStrDigits + 1, _ => '1'))) == Failure(DigitLimitExceeded)
  {
    var ones := seq(MaxStrDigits + 1, _ => '1');
    assert IsNumeric(ones) && !ParseFits(ones);
  }

  /** Whatever the token, the next token read back is never past the end of
      the dataset; for page sizes other than the negative values below -1 it
      is always a valid token again. */
  lemma NextTokenBounded<Row>(ds: seq<Row>, rowsInPage: int, token: Option<string>)
    requires Paginate(ds, rowsInPage, token).Success?
    ensures var next := Paginate(ds, rowsInPage, token).value.nextPageToken;
      && (IsNumeric(next) ==> DigitsValue(next) <= |ds|)
      && (rowsInPage >= AllRemaining ==> IsNumeric(next))
  {
    var end := PageEnd(StartOffset(token), rowsInPage, |ds|);
    IntToStringNumeric(end);
    if end >= 0 {
      ParseShow(end);
    }
  }

  /** At the end of the dataset, and past it, the page is empty and the next
      token is the text of the dataset length: calling again with it returns
      the same result. An offset of more digits than the limit is refused. */
  lemma EmptyAtEnd<Row>(ds: seq<Row>, rowsInPage: int, s: nat)
    requires rowsInPage >= AllRemaining
    requires s >= |ds|
    ensures ShowFits(s) ==>
      Paginate(ds, rowsInPage, Some(NatToString(s))) == Success(PaginatedRows([], 0, NatToString(|ds|)))
    ensures ShowFits(s) ==>
      Paginate(ds, rowsInPage, Some(NatToString(|ds|))) == Paginate(ds, rowsInPage, Some(NatToString(s)))
    ensures !ShowFits(s) ==> Paginate(ds, rowsInPage, Some(NatToString(s))) == Failure(DigitLimitExceeded)
  {
    ParseShow(s);
    ParseShow(|ds|);
    IntToStringNumeric(|ds|);
    DigitsMonotone(|ds|, s);
  }

  /** A page size below -1 can drive the end below zero; the token it emits
      is then negative text, and the next call rejects it. */
  lemma NegativeEndTokenRejected<Row>(ds: seq<Row>, rowsInPage: int, token: Option<string>)
    requires TokenAccepted(token)
    requires rowsInPage < AllRemaining && StartOffset(token) + rowsInPage < 0
    ensures Paginate(ds, rowsInPage, token).Success? <==>
      TokenFits(token) && ShowFits(StartOffset(token) + rowsInPage)
    ensures Paginate(ds, rowsInPage, token).Success? ==>
      && Paginate(ds, rowsInPage, token).value.rows == []
      && Paginate(ds, rowsInPage, Some(Paginate(ds, rowsInPage, token).value.nextPageToken))
         == Failure(InvalidPageToken)
  {
    var end := PageEnd(StartOffset(token), rowsInPage, |ds|);
    IntToStringNumeric(end);
    assert IntToString(end)[0] == '-';
  }

  /** A dataset of at least three rows read with page size 3 and no token
      gives its first three rows, and the count is the page's size rather
      than the dataset's. */
  lemma FirstPageOfThree<Row>(ds: seq<Row>)
    requires |ds| >= 3
    ensures Paginate(ds, 3, None).Success?
    ensures Paginate(ds, 3, None).value.rows == ds[..3]
    ensures Paginate(ds, 3, None).value.totalCount == 3
    ensures Paginate(ds, 3, None).value.nextPageToken == "3"
  {
  }

  /** The cursor a client holds: no token at first, then the text of the
      offset reached. */
  lemma PageFromCursor<Row>(ds: seq<Row>, rowsInPage: nat, s: nat, token: Option<string>)
    requires s <= |ds| && ShowFits(|ds|)
    requires (token == None && s == 0) || token == Some(NatToString(s))
    ensures var end := Min(s + rowsInPage, |ds|);
      Paginate(ds, rowsInPage, token) == Success(PaginatedRows(ds[s..end], end - s, NatToString(end)))
  {
    PageAtOffset(ds, rowsInPage, s);
    if token.None? {
      NoTokenStartsAtZero(ds, rowsInPage);
      assert NatToString(0) == "0";
    }
  }

  /** A client that starts with no token and follows `next_page_token` with
      a fixed positive page size until it receives an empty page reads every
      row exactly once, in dataset order. */
  method ReadAllPages<Row>(ds: seq<Row>, rowsInPage: int) returns (all: seq<Row>)
    requires rowsInPage > 0 && ShowFits(|ds|)
    ensures all == ds
  {
    var token: Option<string> := None;
    all := [];
    var done := false;
    while !done
      invariant |all| <= |ds| && all == ds[..|all|]
      invariant token == None || token == Some(NatToString(|all|))
      invariant token == None ==> all == []
      invariant done ==> all == ds
      decreases |ds| - |all|, if done then 0 else 1
    {
      var start := |all|;
      var end := Min(start + rowsInPage, |ds|);
      var r := Paginate(ds, rowsInPage, token);
      PageFromCursor(ds, rowsInPage, start, token);
      var page := r.value;
      if page.rows == [] {
        done := true;
      } else {
        assert ds[..end] == all + page.rows;
        all := all + page.rows;
        token := Some(page.nextPageToken);
      }
    }
  }
}

=== FILE: registry.dfy ===
/** The provider's local dataset registry (`dataset_infos`): a dict from
    dataset identifier to definition. Python dicts keep insertion order and
    replace a value in place, so the registry is a sequence of definitions
    whose identifiers are pairwise distinct. */
module DatasetRegistry {
  import opened Wrappers

  /** A dataset definition; only the identifier is interpreted here, the
      rest is handed to the dataset loader. */
  datatype DatasetDef = DatasetDef(identifier: string, url: string, metadata: seq<(string, string)>)

  datatype Registry = Registry(infos: seq<DatasetDef>)

  /** Dict keys are unique. */
  predicate Valid(reg: Registry) {
    forall i, j :: 0 <= i < j < |reg.infos| ==> reg.infos[i].identifier != reg.infos[j].identifier
  }

  /** The registry a provider starts with, `dataset_infos = {}`. */
  const EmptyRegistry: Registry := Registry([])

  predicate Registered(reg: Registry, id: string) {
    exists i :: 0 <= i < |reg.infos| && reg.infos[i].identifier == id
  }

  function Find(infos: seq<DatasetDef>, id: string): (r: Option<DatasetDef>)
    ensures r.Some? ==> r.value in infos && r.value.identifier == id
    ensures r.None? <==> forall i :: 0 <= i < |infos| ==> infos[i].identifier != id
  {
    if infos == [] then None
    else if infos[0].identifier == id then Some(infos[0])
    else Find(infos[1..], id)
  }

  /** `dataset_infos[id]`: the definition registered under `id`, if any. */
  function Lookup(reg: Registry, id: string): (r: Option<DatasetDef>)
    ensures r.Some? <==> Registered(reg, id)
    ensures r.Some? ==> r.value in reg.infos && r.value.identifier == id
  {
    Find(reg.infos, id)
  }

  lemma {:induction false} FindAt(infos: seq<DatasetDef>, i: nat)
    requires i < |infos|
    requires forall j, k :: 0 <= j < k < |infos| ==> infos[j].identifier != infos[k].identifier
    ensures Find(infos, infos[i].identifier) == Some(infos[i])
  {
    if i > 0 {
      FindAt(infos[1..], i - 1);
    }
  }

  function ReplaceEntry(infos: seq<DatasetDef>, def: DatasetDef): (r: seq<DatasetDef>)
    ensures |r| == |infos|
    ensures forall i :: 0 <= i < |infos| ==>
      r[i] == if infos[i].identifier == def.identifier then def else infos[i]
  {
    if infos == [] then []
    else [if infos[0].identifier == def.identifier then def else infos[0]] + ReplaceEntry(infos[1..], def)
  }

  /** `register_dataset`: `dataset_infos[def.identifier] = def`. A new
      identifier is appended; an existing one keeps its position and gets
      the new definition. */
  function Register(reg: Registry, def: DatasetDef): (r: Registry)
    requires Valid(reg)
    ensures Valid(r)
    ensures Lookup(r, def.identifier) == Some(def)
    ensures forall id :: id != def.identifier ==> Lookup(r, id) == Lookup(reg, id)
    ensures !Registered(reg, def.identifier) ==> r.infos == reg.infos + [def]
    ensures Registered(reg, def.identifier) ==>
      exists i :: 0 <= i < |reg.infos| && reg.infos[i].identifier == def.identifier
        && r.infos == reg.infos[i := def]
  {
    if Registered(reg, def.identifier) then
      var r := Registry(ReplaceEntry(reg.infos, def));
      var i :| 0 <= i < |reg.infos| && reg.infos[i].identifier == def.identifier;
      assert r.infos == reg.infos[i := def];
      FindAt(r.infos, i);
      LookupUnchanged(reg.infos, r.infos, def.identifier);
      r
    else
      var r := Registry(reg.infos + [def]);
      FindAt(r.infos, |reg.infos|);
      LookupUnchanged(reg.infos, r.infos, def.identifier);
      r
  }

  /** Two registries that agree on every entry whose identifier is not `id`
      (and list the same identifiers apart from `id`) answer lookups of
      other identifiers alike. */
  lemma {:induction false} LookupUnchanged(a: seq<DatasetDef>, b: seq<DatasetDef>, id: string)
    requires |a| <= |b|
    requires forall i :: 0 <= i < |a| ==> a[i].identifier != id ==> b[i] == a[i]
    requires forall i :: 0 <= i < |a| ==> (a[i].identifier == id <==> b[i].identifier == id)
    requires forall i :: |a| <= i < |b| ==> b[i].identifier == id
    ensures forall other :: other != id ==> Find(b, other) == Find(a, other)
  {
    if a != [] {
      LookupUnchanged(a[1..], b[1..], id);
    }
  }

  /** `list_datasets`: the registered definitions, in insertion order. */
  function ListDatasets(reg: Registry): (r: seq<DatasetDef>)
    requires Valid(reg)
    ensures |r| == |reg.infos|
    ensures forall d :: d in r <==> Lookup(reg, d.identifier) == Some(d)
  {
    forall d | d in reg.infos
      ensures Lookup(reg, d.identifier) == Some(d)
    {
      var i :| 0 <= i < |reg.infos| && reg.infos[i] == d;
      FindAt(reg.infos, i);
    }
    reg.infos
  }

  /** The registry a provider starts with: valid, with nothing registered
      and nothing listed. */
  lemma EmptyRegistryFresh()
    ensures Valid(EmptyRegistry)
    ensures forall id :: !Registered(EmptyRegistry, id)
    ensures ListDatasets(EmptyRegistry) == []
  {
  }

  /** After registering, a listing holds the new definition and no other
      definition under the same identifier. A new identifier is listed
      last; a re-registered one keeps its place in the listing. */
  lemma ListingAfterRegister(reg: Registry, def: DatasetDef)
    requires Valid(reg)
    ensures def in ListDatasets(Register(reg, def))
    ensures forall d :: d in ListDatasets(Register(reg, def)) && d.identifier == def.identifier ==> d == def
    ensures forall d :: d in ListDatasets(reg) && d.identifier != def.identifier ==> d in ListDatasets(Register(reg, def))
    ensures !Registered(reg, def.identifier) ==> ListDatasets(Register(reg, def)) == ListDatasets(reg) + [def]
    ensures Registered(reg, def.identifier) ==>
      exists i :: 0 <= i < |reg.infos| && ListDatasets(reg)[i].identifier == def.identifier
        && ListDatasets(Register(reg, def)) == ListDatasets(reg)[i := def]
  {
  }
}

=== FILE: wolfram.dfy ===
/** The WolframAlpha tool runtime: choosing the API key, and pruning the
    JSON answer of the query API before it is handed back to the caller. */
module WolframAlpha {
  import opened Wrappers
  import opened JsonTree

  // ---------------------------------------------------------------------
  // API key selection
  // ---------------------------------------------------------------------

  /** The per-request provider data; the key attribute may be unset. */
  datatype ProviderData = ProviderData(wolframAlphaApiKey: Option<string>)

  const MissingApiKeyMessage: string :=
    "Pass WolframAlpha API Key in the header X-LlamaStack-Provider-Data as { \"wolfram_alpha_api_key\": <your api key>}"

  /** Python truthiness of an optional string. */
  predicate Truthy(s: Option<string>) {
    s.Some? && s.value != ""
  }

  /** The configured key wins when it is non-empty; otherwise the key in the
      request's provider data; otherwise a ValueError carrying the message. */
  function GetApiKey(configKey: Option<string>, providerData: Option<ProviderData>): (r: Result<string, string>)
    ensures r.Success? ==> r.value != ""
    ensures Truthy(configKey) ==> r == Success(configKey.value)
    ensures !Truthy(configKey) && providerData.Some? && Truthy(providerData.value.wolframAlphaApiKey)
      ==> r == Success(providerData.value.wolframAlphaApiKey.value)
    ensures r.Failure? <==>
      !Truthy(configKey) && (providerData.None? || !Truthy(providerData.value.wolframAlphaApiKey))
    ensures r.Failure? ==> r.error == MissingApiKeyMessage
  {
    if Truthy(configKey) then Success(configKey.value)
    else if providerData.None? || !Truthy(providerData.value.wolframAlphaApiKey) then Failure(MissingApiKeyMessage)
    else Success(providerData.value.wolframAlphaApiKey.value)
  }

  // ---------------------------------------------------------------------
  // Response pruning
  // ---------------------------------------------------------------------

  const QueryResultKey: string := "queryresult"
  const PodsKey: string := "pods"
  const TitleKey: string := "title"
  const ResultTitle: string := "Result"
  const AssumptionsKey: string := "assumptions"

  /** Keys dropped from `queryresult` before the pods are pruned. */
  const TopLevelKeys: seq<string> := [
    "datatypes", "error", "timedout", "timedoutpods", "numpods", "timing", "parsetiming",
    "parsetimedout", "recalculate", "id", "host", "server", "related", "version"]

  /** Keys dropped from every pod that survives truncation. */
  const PodKeys: seq<string> := [
    "scanner", "id", "error", "expressiontypes", "states", "infos", "position", "numsubpods"]

  /** One entry of the removal schedule: a key of `queryresult`, or the
      nested pods entry with the keys to strip from each pod. */
  datatype Step = RemoveKey(key: string) | PrunePods(podKeys: seq<string>)

  function RemovalSteps(ks: seq<string>): (steps: seq<Step>)
    ensures |steps| == |ks|
    ensures forall i :: 0 <= i < |ks| ==> steps[i] == RemoveKey(ks[i])
  {
    seq(|ks|, i requires 0 <= i < |ks| => RemoveKey(ks[i]))
  }

  /** The schedule in the order the cleaning loop visits it: the fourteen
      top-level keys, then the pods, then `assumptions`. */
  const Schedule: seq<Step> := RemovalSteps(TopLevelKeys) + [PrunePods(PodKeys), RemoveKey(AssumptionsKey)]

  /** The `KeyError` a step raises, naming the missing key. */
  datatype KeyError = KeyError(key: string)

  function FieldOf(fs: Fields, k: string): (r: Result<Json, KeyError>)
    ensures r.Success? <==> HasKey(fs, k)
    ensures r.Success? ==> Get(fs, k) == Some(r.value)
    ensures r.Failure? ==> r.error == KeyError(k)
  {
    match Get(fs, k)
    case Some(v) => Success(v)
    case None => Failure(KeyError(k))
  }

  predicate PodsShaped(pods: seq<Json>) {
    forall i :: 0 <= i < |pods| ==> pods[i].JObj?
  }

  /** A `queryresult` the cleaning can walk: a dict whose pods, if any, are
      a list of dicts. */
  predicate QueryShaped(q: Fields) {
    && UniqueKeys(q)
    && match Get(q, PodsKey)
       case None => true
       case Some(p) => p.JArr? && PodsShaped(p.items)
  }

  /** A response the cleaning can walk without a TypeError. */
  predicate WellShaped(resp: Json) {
    && resp.JObj?
    && UniqueKeys(resp.fields)
    && match Get(resp.fields, QueryResultKey)
       case None => true
       case Some(qr) => qr.JObj? && QueryShaped(qr.fields)
  }

  predicate Titled(pod: Json) {
    pod.JObj? && HasKey(pod.fields, TitleKey)
  }

  /** `pod["title"] == "Result"`. */
  predicate IsResultPod(pod: Json) {
    pod.JObj? && Get(pod.fields, TitleKey) == Some(JStr(ResultTitle))
  }

  /** The scan moves past the first `n` pods: each has a title, and none
      is titled "Result". */
  predicate ScannedPast(pods: seq<Json>, n: nat)
    requires n <= |pods|
  {
    forall j :: 0 <= j < n ==> Titled(pods[j]) && !IsResultPod(pods[j])
  }

  /** The truncation scan: the index of the first pod titled "Result", or
      none; a pod without a title reached first raises `KeyError`. */
  function FindResultPod(pods: seq<Json>): (r: Result<Option<nat>, KeyError>)
    requires PodsShaped(pods)
    ensures r.Success? && r.value.Some? ==>
      && r.value.value < |pods|
      && IsResultPod(pods[r.value.value])
      && ScannedPast(pods, r.value.value)
    ensures r.Success? && r.value.None? ==> ScannedPast(pods, |pods|)
    ensures r.Failure? ==>
      && r.error == KeyError(TitleKey)
      && (exists i :: 0 <= i < |pods| && !Titled(pods[i]) && ScannedPast(pods, i))
  {
    if pods == [] then Success(None)
    else if !Titled(pods[0]) then Failure(KeyError(TitleKey))
    else if IsResultPod(pods[0]) then Success(Some(0))
    else
      match FindResultPod(pods[1..])
      case Failure(e) =>
        UntitledLifts(pods);
        Failure(e)
      case Success(None) =>
        ScannedPastCons(pods, |pods| - 1);
        Success(None)
      case Success(Some(i)) =>
        ScannedPastCons(pods, i);
        Success(Some(i + 1))
  }

  /** A titled, non-"Result" first pod followed by `n` scanned pods makes
      `n + 1` scanned pods. */
  lemma ScannedPastCons(pods: seq<Json>, n: nat)
    requires 0 < |pods| && n < |pods| && Titled(pods[0]) && !IsResultPod(pods[0])
    requires ScannedPast(pods[1..], n)
    ensures ScannedPast(pods, n + 1)
  {
    forall j | 0 <= j < n + 1 ensures Titled(pods[j]) && !IsResultPod(pods[j]) {
      if j > 0 {
        assert pods[j] == pods[1..][j - 1];
      }
    }
  }

  /** An untitled pod reached in the tail is reached in the whole list. */
  lemma UntitledLifts(pods: seq<Json>)
    requires 0 < |pods| && Titled(pods[0]) && !IsResultPod(pods[0])
    requires exists i :: 0 <= i < |pods[1..]| && !Titled(pods[1..][i]) && ScannedPast(pods[1..], i)
    ensures exists i :: 0 <= i < |pods| && !Titled(pods[i]) && ScannedPast(pods, i)
  {
    var i :| 0 <= i < |pods[1..]| && !Titled(pods[1..][i]) && ScannedPast(pods[1..], i);
    ScannedPastCons(pods, i);
    assert pods[i + 1] == pods[1..][i];
  }

  /** Strips the given keys from every pod, keeping the pods' order. */
  function StripPods(pods: seq<Json>, keys: seq<string>): (r: seq<Json>)
    requires PodsShaped(pods)
    ensures |r| == |pods| && PodsShaped(r)
    ensures forall i, k :: 0 <= i < |pods| && k in keys ==> !HasKey(r[i].fields, k)
    ensures forall i, k :: 0 <= i < |pods| && k !in keys ==> Get(r[i].fields, k) == Get(pods[i].fields, k)
    ensures forall i {:trigger Keys(r[i].fields)} :: 0 <= i < |pods| ==> Keys(r[i].fields) == Without(Keys(pods[i].fields), keys)
  {
    if pods == [] then []
    else
      var rest := StripPods(pods[1..], keys);
      var r := [JObj(DeleteAll(pods[0].fields, keys))] + rest;
      assert forall i :: 0 < i < |pods| ==> r[i] == rest[i - 1] && pods[i] == pods[1..][i - 1];
      r
  }

  /** The pods list after truncation after the first "Result" pod and
      stripping; raises `KeyError` when an untitled pod is reached first. */
  function PrunedPods(pods: seq<Json>, keys: seq<string>): (r: Result<seq<Json>, KeyError>)
    requires PodsShaped(pods)
    ensures r.Success? ==> PodsShaped(r.value)
  {
    var cut :- FindResultPod(pods);
    var kept := if cut.Some? then pods[..cut.value + 1] else pods;
    Success(StripPods(kept, keys))
  }

  /** The pods entry on a `queryresult` dict. Raises `KeyError` when there
      are no pods, or when the scan raises. */
  function PruneQueryPods(q: Fields, keys: seq<string>): (r: Result<Fields, KeyError>)
    requires QueryShaped(q)
    ensures r.Success? ==> QueryShaped(r.value)
    ensures r.Success? ==> Keys(r.value) == Keys(q)
    ensures r.Success? ==> forall k :: k != PodsKey ==> Get(r.value, k) == Get(q, k)
    ensures r.Failure? <==>
      || !HasKey(q, PodsKey)
      || PrunedPods(Get(q, PodsKey).value.items, keys).Failure?
    ensures r.Success? ==>
      Get(r.value, PodsKey) == Some(JArr(PrunedPods(Get(q, PodsKey).value.items, keys).value))
  {
    var pods :- FieldOf(q, PodsKey);
    var stripped :- PrunedPods(pods.items, keys);
    PutGet(q, PodsKey, JArr(stripped));
    PutKeys(q, PodsKey, JArr(stripped));
    Success(Put(q, PodsKey, JArr(stripped)))
  }

  /** One step of the schedule, as the body of one `try`. */
  function ApplyStep(resp: Json, step: Step): (r: Result<Json, KeyError>)
    requires WellShaped(resp)
    ensures r.Success? ==> WellShaped(r.value)
    ensures r.Success? ==> Keys(r.value.fields) == Keys(resp.fields)
    ensures r.Success? ==> forall k :: k != QueryResultKey ==> Get(r.value.fields, k) == Get(resp.fields, k)
    ensures r.Failure? <==>
      || !HasKey(resp.fields, QueryResultKey)
      || (step.PrunePods? && PruneQueryPods(Get(resp.fields, QueryResultKey).value.fields, step.podKeys).Failure?)
  {
    var qr :- FieldOf(resp.fields, QueryResultKey);
    match step
    case RemoveKey(k) =>
      if HasKey(qr.fields, k) then
        PutGet(resp.fields, QueryResultKey, JObj(Delete(qr.fields, k)));
        PutKeys(resp.fields, QueryResultKey, JObj(Delete(qr.fields, k)));
        Success(JObj(Put(resp.fields, QueryResultKey, JObj(Delete(qr.fields, k)))))
      else Success(resp)
    case PrunePods(keys) =>
      var q :- PruneQueryPods(qr.fields, keys);
      PutGet(resp.fields, QueryResultKey, JObj(q));
      PutKeys(resp.fields, QueryResultKey, JObj(q));
      Success(JObj(Put(resp.fields, QueryResultKey, JObj(q))))
  }

  /** Runs the steps in order; each sits in its own `try ... except
      KeyError: pass`, so a failing step leaves the response as it was. */
  function RunSteps(resp: Json, steps: seq<Step>): (r: Json)
    requires WellShaped(resp)
    ensures WellShaped(r)
    ensures Keys(r.fields) == Keys(resp.fields)
    ensures forall k :: k != QueryResultKey ==> Get(r.fields, k) == Get(resp.fields, k)
    decreases |steps|
  {
    if steps == [] then resp
    else
      var next := match ApplyStep(resp, steps[0]) case Success(v) => v case Failure(_) => resp;
      RunSteps(next, steps[1..])
  }

  /** `_clean_wolfram_alpha_response`: the schedule run step by step. Only
      the `queryresult` entry can change. */
  function Clean(resp: Json): (r: Json)
    requires WellShaped(resp)
    ensures WellShaped(r)
    ensures Keys(r.fields) == Keys(resp.fields)
    ensures forall k :: k != QueryResultKey ==> Get(r.fields, k) == Get(resp.fields, k)
  {
    RunSteps(resp, Schedule)
  }

  // ---------------------------------------------------------------------
  // Reference definition, grouped by effect rather than by step
  // ---------------------------------------------------------------------

  /** The cleaned `queryresult`: the top-level keys deleted, the pods
      pruned unless that entry raised, `assumptions` deleted. */
  function CleanQuery(q: Fields): (r: Fields)
    requires QueryShaped(q)
    ensures QueryShaped(r)
    ensures forall k :: k in TopLevelKeys || k == AssumptionsKey ==> !HasKey(r, k)
    ensures forall k :: k !in TopLevelKeys && k != AssumptionsKey && k != PodsKey ==> Get(r, k) == Get(q, k)
    ensures Keys(r) == Without(Keys(q), TopLevelKeys + [AssumptionsKey])
  {
    PodsKeyKept();
    CleanQueryWith(q, TopLevelKeys);
    Delete(PruneOrKeep(DeleteAll(q, TopLevelKeys)), AssumptionsKey)
  }

  /** The facts behind `CleanQuery`, for any list of removed keys that
      leaves `pods` alone. */
  lemma CleanQueryWith(q: Fields, ks: seq<string>)
    requires QueryShaped(q) && PodsKey !in ks
    ensures QueryShaped(DeleteAll(q, ks))
    ensures var r := Delete(PruneOrKeep(DeleteAll(q, ks)), AssumptionsKey);
      && QueryShaped(r)
      && (forall k :: k in ks || k == AssumptionsKey ==> !HasKey(r, k))
      && (forall k :: k !in ks && k != AssumptionsKey && k != PodsKey ==> Get(r, k) == Get(q, k))
      && Keys(r) == Without(Keys(q), ks + [AssumptionsKey])
  {
    var q1 := DeleteAll(q, ks);
    assert Get(q1, PodsKey) == Get(q, PodsKey);
    var p := PruneOrKeep(q1);
    var r := Delete(p, AssumptionsKey);
    WithoutWithout(Keys(q), ks, [AssumptionsKey]);
    forall k | k in ks ensures !HasKey(r, k) {
      assert !HasKey(q1, k);
      if k != AssumptionsKey {
        assert Get(p, k) == Get(q1, k);
      }
    }
  }

  /** The pods entry with its `KeyError` swallowed. */
  function PruneOrKeep(q: Fields): (r: Fields)
    requires QueryShaped(q)
    ensures QueryShaped(r)
    ensures Keys(r) == Keys(q)
    ensures forall k :: k != PodsKey ==> Get(r, k) == Get(q, k)
  {
    match PruneQueryPods(q, PodKeys)
    case Success(p) => p
    case Failure(_) => q
  }

  lemma PodsKeyKept()
    ensures PodsKey !in TopLevelKeys && PodsKey != AssumptionsKey
    ensures AssumptionsKey !in TopLevelKeys
    ensures TitleKey !in PodKeys
  {
  }

  /** The whole response with only its `queryresult` replaced. */
  function CleanSpec(resp: Json): (r: Json)
    requires WellShaped(resp)
  {
    match Get(resp.fields, QueryResultKey)
    case None => resp
    case Some(qr) => JObj(Put(resp.fields, QueryResultKey, JObj(CleanQuery(qr.fields))))
  }

  /** The `queryresult` fields of a response that has one. */
  function QueryFields(resp: Json): Fields
    requires WellShaped(resp) && HasKey(resp.fields, QueryResultKey)
  {
    Get(resp.fields, QueryResultKey).value.fields
  }

  lemma {:induction false} RunStepsAppend(resp: Json, a: seq<Step>, b: seq<Step>)
    requires WellShaped(resp)
    ensures RunSteps(resp, a + b) == RunSteps(RunSteps(resp, a), b)
    decreases |a|
  {
    if a == [] {
      assert a + b == b;
    } else {
      assert (a + b)[0] == a[0];
      assert (a + b)[1..] == a[1..] + b;
      var next := match ApplyStep(resp, a[0]) case Success(v) => v case Failure(_) => resp;
      RunStepsAppend(next, a[1..], b);
    }
  }

  /** Every step raises when there is no `queryresult`. */
  lemma {:induction false} NoQueryResultUnchanged(resp: Json, steps: seq<Step>)
    requires WellShaped(resp) && !HasKey(resp.fields, QueryResultKey)
    ensures RunSteps(resp, steps) == resp
    decreases |steps|
  {
    if steps != [] {
      NoQueryResultUnchanged(resp, steps[1..]);
    }
  }

  /** A key removal, present or not, amounts to replacing `queryresult` by
      itself minus that key. */
  lemma RemoveKeyStep(resp: Json, k: string)
    requires WellShaped(resp) && HasKey(resp.fields, QueryResultKey)
    ensures ApplyStep(resp, RemoveKey(k))
      == Success(JObj(Put(resp.fields, QueryResultKey, JObj(Delete(QueryFields(resp), k)))))
  {
    if !HasKey(QueryFields(resp), k) {
      PutSame(resp.fields, QueryResultKey, JObj(QueryFields(resp)));
    }
  }

  /** A run of key removals deletes those keys from `queryresult`. */
  lemma {:induction false} RemovalPhase(resp: Json, ks: seq<string>)
    requires WellShaped(resp) && HasKey(resp.fields, QueryResultKey)
    ensures RunSteps(resp, RemovalSteps(ks))
      == JObj(Put(resp.fields, QueryResultKey, JObj(DeleteAll(QueryFields(resp), ks))))
    decreases |ks|
  {
    var q := QueryFields(resp);
    if ks == [] {
      PutSame(resp.fields, QueryResultKey, JObj(q));
    } else {
      RemoveKeyStep(resp, ks[0]);
      var q1 := Delete(q, ks[0]);
      var resp1 := JObj(Put(resp.fields, QueryResultKey, JObj(q1)));
      PutGet(resp.fields, QueryResultKey, JObj(q1));
      assert RemovalSteps(ks)[1..] == RemovalSteps(ks[1..]);
      RemovalPhase(resp1, ks[1..]);
      PutPut(resp.fields, QueryResultKey, JObj(q1), JObj(DeleteAll(q1, ks[1..])));
    }
  }

  /** The pods entry, raising or not, amounts to replacing `queryresult`
      by its pruned-or-kept version. */
  lemma PruneStep(resp: Json)
    requires WellShaped(resp) && HasKey(resp.fields, QueryResultKey)
    ensures (match ApplyStep(resp, PrunePods(PodKeys)) case Success(v) => v case Failure(_) => resp)
      == JObj(Put(resp.fields, QueryResultKey, JObj(PruneOrKeep(QueryFields(resp)))))
  {
    if PruneQueryPods(QueryFields(resp), PodKeys).Failure? {
      PutSame(resp.fields, QueryResultKey, JObj(QueryFields(resp)));
    }
  }

  /** The last step of the schedule on its own. */
  lemma AssumptionsStep(resp: Json)
    requires WellShaped(resp) && HasKey(resp.fields, QueryResultKey)
    ensures RunSteps(resp, [RemoveKey(AssumptionsKey)])
      == JObj(Put(resp.fields, QueryResultKey, JObj(Delete(QueryFields(resp), AssumptionsKey))))
  {
    var next := JObj(Put(resp.fields, QueryResultKey, JObj(Delete(QueryFields(resp), AssumptionsKey))));
    RemoveKeyStep(resp, AssumptionsKey);
    assert [RemoveKey(AssumptionsKey)][1..] == [];
    assert RunSteps(resp, [RemoveKey(AssumptionsKey)]) == RunSteps(next, []);
  }

  /** The last two steps of the schedule. */
  lemma TailPhase(resp: Json)
    requires WellShaped(resp) && HasKey(resp.fields, QueryResultKey)
    ensures RunSteps(resp, [PrunePods(PodKeys), RemoveKey(AssumptionsKey)])
      == JObj(Put(resp.fields, QueryResultKey, JObj(Delete(PruneOrKeep(QueryFields(resp)), AssumptionsKey))))
  {
    var steps := [PrunePods(PodKeys), RemoveKey(AssumptionsKey)];
    var q2 := PruneOrKeep(QueryFields(resp));
    var resp2 := JObj(Put(resp.fields, QueryResultKey, JObj(q2)));
    PruneStep(resp);
    assert steps[1..] == [RemoveKey(AssumptionsKey)];
    assert RunSteps(resp, steps) == RunSteps(resp2, [RemoveKey(AssumptionsKey)]);
    PutGet(resp.fields, QueryResultKey, JObj(q2));
    AssumptionsStep(resp2);
    PutPut(resp.fields, QueryResultKey, JObj(q2), JObj(Delete(q2, AssumptionsKey)));
  }

  /** The step-by-step cleaning equals the reference definition: each
      failing step is isolated, and the steps' effects compose into one
      replacement of `queryresult`. */
  lemma CleanMatchesSpec(resp: Json)
    requires WellShaped(resp)
    ensures Clean(resp) == CleanSpec(resp)
  {
    if !HasKey(resp.fields, QueryResultKey) {
      NoQueryResultUnchanged(resp, Schedule);
    } else {
      var q := QueryFields(resp);
      var tail := [PrunePods(PodKeys), RemoveKey(AssumptionsKey)];
      RunStepsAppend(resp, RemovalSteps(TopLevelKeys), tail);
      RemovalPhase(resp, TopLevelKeys);
      var q1 := DeleteAll(q, TopLevelKeys);
      var resp1 := JObj(Put(resp.fields, QueryResultKey, JObj(q1)));
      PutGet(resp.fields, QueryResultKey, JObj(q1));
      TailPhase(resp1);
      PutPut(resp.fields, QueryResultKey, JObj(q1), JObj(Delete(PruneOrKeep(q1), AssumptionsKey)));
    }
  }

  // ---------------------------------------------------------------------
  // Properties of the cleaning
  // ---------------------------------------------------------------------

  /** Without a `queryresult` every step raises `KeyError`, each is
      swallowed, and the response comes back unchanged. */
  lemma CleanWithoutQueryResult(resp: Json)
    requires WellShaped(resp) && !HasKey(resp.fields, QueryResultKey)
    ensures Clean(resp) == resp
  {
    NoQueryResultUnchanged(resp, Schedule);
  }

  /** Cleaning touches only the `queryresult` entry of the response: the
      keys and their order are the same, and every other value is the same. */
  lemma CleanTouchesOnlyQueryResult(resp: Json)
    requires WellShaped(resp)
    ensures Keys(Clean(resp).fields) == Keys(resp.fields)
    ensures forall k :: k != QueryResultKey ==> Get(Clean(resp).fields, k) == Get(resp.fields, k)
    ensures HasKey(Clean(resp).fields, QueryResultKey) <==> HasKey(resp.fields, QueryResultKey)
  {
    CleanMatchesSpec(resp);
    if HasKey(resp.fields, QueryResultKey) {
      var c := JObj(CleanQuery(QueryFields(resp)));
      assert Clean(resp) == JObj(Put(resp.fields, QueryResultKey, c));
      PutGet(resp.fields, QueryResultKey, c);
      PutKeys(resp.fields, QueryResultKey, c);
    } else {
      assert Clean(resp) == resp;
    }
  }

  /** Every listed top-level key, and `assumptions`, is gone from the
      cleaned `queryresult`, whatever happened to the pods. */
  lemma CleanRemovesListedKeys(resp: Json)
    requires WellShaped(resp) && HasKey(resp.fields, QueryResultKey)
    ensures HasKey(Clean(resp).fields, QueryResultKey)
    ensures forall k :: k in TopLevelKeys || k == AssumptionsKey ==> !HasKey(QueryFields(Clean(resp)), k)
  {
    CleanMatchesSpec(resp);
    PutGet(resp.fields, QueryResultKey, JObj(CleanQuery(QueryFields(resp))));
  }

  /** Every other key of `queryresult` keeps its value; only `pods` may
      change. */
  lemma CleanKeepsOtherQueryKeys(resp: Json)
    requires WellShaped(resp) && HasKey(resp.fields, QueryResultKey)
    ensures HasKey(Clean(resp).fields, QueryResultKey)
    ensures forall k :: k !in TopLevelKeys && k != AssumptionsKey && k != PodsKey ==>
      Get(QueryFields(Clean(resp)), k) == Get(QueryFields(resp), k)
    ensures Keys(QueryFields(Clean(resp))) == Without(Keys(QueryFields(resp)), TopLevelKeys + [AssumptionsKey])
  {
    CleanMatchesSpec(resp);
    PutGet(resp.fields, QueryResultKey, JObj(CleanQuery(QueryFields(resp))));
  }

  /** The scan's answer is determined by the first pod that is untitled or
      titled "Result": the three outcomes of `FindResultPod` are exactly the
      three ways the pods can be. */
  lemma {:induction false} FindResultPodComplete(pods: seq<Json>, i: nat)
    requires PodsShaped(pods) && i <= |pods| && ScannedPast(pods, i)
    ensures i == |pods| ==> FindResultPod(pods) == Success(None)
    ensures i < |pods| && IsResultPod(pods[i]) ==> FindResultPod(pods) == Success(Some(i))
    ensures i < |pods| && !Titled(pods[i]) ==> FindResultPod(pods) == Failure(KeyError(TitleKey))
  {
    if i > 0 {
      assert ScannedPast(pods[1..], i - 1) by {
        forall j | 0 <= j < i - 1 ensures Titled(pods[1..][j]) && !IsResultPod(pods[1..][j]) {
          assert pods[1..][j] == pods[j + 1];
        }
      }
      FindResultPodComplete(pods[1..], i - 1);
      if i < |pods| {
        assert pods[1..][i - 1] == pods[i];
      }
    }
  }

  function PodsOf(q: Fields): seq<Json>
    requires QueryShaped(q) && HasKey(q, PodsKey)
  {
    Get(q, PodsKey).value.items
  }

  /** The pods entry of the cleaned `queryresult`: the pruned pods, or
      the original entry when the pods step raised. */
  lemma CleanedPods(resp: Json)
    requires WellShaped(resp) && HasKey(resp.fields, QueryResultKey)
    ensures HasKey(Clean(resp).fields, QueryResultKey)
    ensures HasKey(QueryFields(Clean(resp)), PodsKey) <==> HasKey(QueryFields(resp), PodsKey)
    ensures HasKey(QueryFields(resp), PodsKey) ==>
      Get(QueryFields(Clean(resp)), PodsKey)
        == match PrunedPods(PodsOf(QueryFields(resp)), PodKeys)
           case Success(ps) => Some(JArr(ps))
           case Failure(_) => Get(QueryFields(resp), PodsKey)
  {
    CleanMatchesSpec(resp);
    var q := QueryFields(resp);
    assert Clean(resp) == JObj(Put(resp.fields, QueryResultKey, JObj(CleanQuery(q))));
    PutGet(resp.fields, QueryResultKey, JObj(CleanQuery(q)));
    CleanQueryPods(q);
  }

  /** The pods entry of a cleaned `queryresult` dict. */
  lemma CleanQueryPods(q: Fields)
    requires QueryShaped(q)
    ensures HasKey(CleanQuery(q), PodsKey) <==> HasKey(q, PodsKey)
    ensures HasKey(q, PodsKey) ==>
      Get(CleanQuery(q), PodsKey)
        == match PrunedPods(PodsOf(q), PodKeys)
           case Success(ps) => Some(JArr(ps))
           case Failure(_) => Get(q, PodsKey)
  {
    PodsKeyKept();
    var q1 := DeleteAll(q, TopLevelKeys);
    assert Get(q1, PodsKey) == Get(q, PodsKey);
    var p := PruneOrKeep(q1);
    assert CleanQuery(q) == Delete(p, AssumptionsKey);
    assert Get(CleanQuery(q), PodsKey) == Get(p, PodsKey);
    if HasKey(q, PodsKey) {
      assert PodsOf(q1) == PodsOf(q);
      if PrunedPods(PodsOf(q), PodKeys).Success? {
        assert PruneQueryPods(q1, PodKeys).Success?;
      } else {
        assert PruneQueryPods(q1, PodKeys).Failure?;
      }
    } else {
      assert PruneQueryPods(q1, PodKeys).Failure?;
    }
  }

  /** If the scan reaches a pod titled "Result" (every pod before it has a
      title), the cleaned pods are exactly the pods up to and including it,
      each stripped. */
  lemma CleanTruncatesAtFirstResult(resp: Json, i: nat)
    requires WellShaped(resp) && HasKey(resp.fields, QueryResultKey)
    requires HasKey(QueryFields(resp), PodsKey)
    requires i < |PodsOf(QueryFields(resp))|
    requires IsResultPod(PodsOf(QueryFields(resp))[i]) && ScannedPast(PodsOf(QueryFields(resp)), i)
    ensures HasKey(Clean(resp).fields, QueryResultKey)
    ensures Get(QueryFields(Clean(resp)), PodsKey)
      == Some(JArr(StripPods(PodsOf(QueryFields(resp))[..i + 1], PodKeys)))
  {
    var pods := PodsOf(QueryFields(resp));
    FindResultPodComplete(pods, i);
    PrunedAt(pods, PodKeys, i);
    CleanedPods(resp);
  }

  /** If every pod has a title and none is "Result", the cleaned pods are
      all the pods, in order, each stripped. */
  lemma CleanKeepsPodsWithoutResult(resp: Json)
    requires WellShaped(resp) && HasKey(resp.fields, QueryResultKey)
    requires HasKey(QueryFields(resp), PodsKey)
    requires ScannedPast(PodsOf(QueryFields(resp)), |PodsOf(QueryFields(resp))|)
    ensures HasKey(Clean(resp).fields, QueryResultKey)
    ensures Get(QueryFields(Clean(resp)), PodsKey)
      == Some(JArr(StripPods(PodsOf(QueryFields(resp)), PodKeys)))
  {
    FindResultPodComplete(PodsOf(QueryFields(resp)), |PodsOf(QueryFields(resp))|);
    CleanedPods(resp);
  }

  /** If the scan reaches an untitled pod first, the pods entry is left
      exactly as it was: no truncation and no stripping. */
  lemma CleanSkipsPodsAtUntitled(resp: Json, i: nat)
    requires WellShaped(resp) && HasKey(resp.fields, QueryResultKey)
    requires HasKey(QueryFields(resp), PodsKey)
    requires i < |PodsOf(QueryFields(resp))|
    requires !Titled(PodsOf(QueryFields(resp))[i]) && ScannedPast(PodsOf(QueryFields(resp)), i)
    ensures HasKey(Clean(resp).fields, QueryResultKey)
    ensures Get(QueryFields(Clean(resp)), PodsKey) == Get(QueryFields(resp), PodsKey)
  {
    FindResultPodComplete(PodsOf(QueryFields(resp)), i);
    CleanedPods(resp);
  }

  // ---------------------------------------------------------------------
  // Idempotence
  // ---------------------------------------------------------------------

  /** Stripping keys other than the title does not change what the scan
      finds. */
  lemma StripKeepsScan(pods: seq<Json>, keys: seq<string>)
    requires PodsShaped(pods) && TitleKey !in keys
    ensures FindResultPod(StripPods(pods, keys)) == FindResultPod(pods)
  {
    var s := StripPods(pods, keys);
    StripKeepsTitles(pods, keys);
    match FindResultPod(pods)
    case Success(None) =>
      FindResultPodComplete(s, |s|);
    case Success(Some(i)) =>
      FindResultPodComplete(s, i);
    case Failure(_) =>
      var i :| 0 <= i < |pods| && !Titled(pods[i]) && ScannedPast(pods, i);
      FindResultPodComplete(s, i);
  }

  /** Stripping keys other than the title keeps every pod's title, so the
      scan moves past the same pods. */
  lemma StripKeepsTitles(pods: seq<Json>, keys: seq<string>)
    requires PodsShaped(pods) && TitleKey !in keys
    ensures forall j :: 0 <= j < |pods| ==>
      (Titled(StripPods(pods, keys)[j]) <==> Titled(pods[j]))
      && (IsResultPod(StripPods(pods, keys)[j]) <==> IsResultPod(pods[j]))
    ensures forall n :: 0 <= n <= |pods| ==> (ScannedPast(StripPods(pods, keys), n) <==> ScannedPast(pods, n))
  {
    var s := StripPods(pods, keys);
    assert forall j :: 0 <= j < |pods| ==> Get(s[j].fields, TitleKey) == Get(pods[j].fields, TitleKey);
  }

  /** Stripping twice is stripping once. */
  lemma {:induction false} StripIdempotent(pods: seq<Json>, keys: seq<string>)
    requires PodsShaped(pods)
    ensures StripPods(StripPods(pods, keys), keys) == StripPods(pods, keys)
  {
    if pods != [] {
      var s := StripPods(pods, keys);
      assert s[1..] == StripPods(pods[1..], keys);
      StripIdempotent(pods[1..], keys);
    }
  }

  /** Pruning an already pruned pods list changes nothing. */
  lemma PrunedPodsStable(pods: seq<Json>, keys: seq<string>)
    requires PodsShaped(pods) && TitleKey !in keys
    ensures PrunedPods(pods, keys).Success? ==>
      PrunedPods(PrunedPods(pods, keys).value, keys) == PrunedPods(pods, keys)
  {
    if FindResultPod(pods).Failure? {
      return;
    }
    var cut := FindResultPod(pods).value;
    if cut.Some? {
      TruncatedPodsStable(pods, keys, cut.value);
    } else {
      FullPodsStable(pods, keys);
    }
  }

  lemma TruncatedPodsStable(pods: seq<Json>, keys: seq<string>, i: nat)
    requires PodsShaped(pods) && TitleKey !in keys && FindResultPod(pods) == Success(Some(i))
    ensures PrunedPods(pods, keys) == Success(StripPods(pods[..i + 1], keys))
    ensures PrunedPods(StripPods(pods[..i + 1], keys), keys) == PrunedPods(pods, keys)
  {
    var kept := pods[..i + 1];
    var s := StripPods(kept, keys);
    PrunedAt(pods, keys, i);
    TruncatedScan(pods, i + 1, i);
    StripKeepsScan(kept, keys);
    PrunedAt(s, keys, i);
    assert s[..i + 1] == s;
    StripIdempotent(kept, keys);
  }

  /** Pruning when the scan finds a "Result" pod at index i. */
  lemma PrunedAt(pods: seq<Json>, keys: seq<string>, i: nat)
    requires PodsShaped(pods) && FindResultPod(pods) == Success(Some(i))
    ensures i < |pods|
    ensures PrunedPods(pods, keys) == Success(StripPods(pods[..i + 1], keys))
  {
  }

  /** Cutting the pods anywhere after the first "Result" pod leaves the
      scan's answer unchanged. */
  lemma TruncatedScan(pods: seq<Json>, n: nat, i: nat)
    requires PodsShaped(pods) && FindResultPod(pods) == Success(Some(i)) && i < n <= |pods|
    ensures PodsShaped(pods[..n]) && FindResultPod(pods[..n]) == Success(Some(i))
  {
    var p := pods[..n];
    assert p[i] == pods[i];
    assert PodsShaped(p) && ScannedPast(p, i) by {
      forall j | 0 <= j < |p| ensures p[j] == pods[j] {
      }
    }
    FindResultPodComplete(p, i);
  }

  lemma FullPodsStable(pods: seq<Json>, keys: seq<string>)
    requires PodsShaped(pods) && TitleKey !in keys && FindResultPod(pods) == Success(None)
    ensures PrunedPods(pods, keys) == Success(StripPods(pods, keys))
    ensures PrunedPods(StripPods(pods, keys), keys) == PrunedPods(pods, keys)
  {
    StripKeepsScan(pods, keys);
    StripIdempotent(pods, keys);
  }

  /** A `queryresult` the pods step leaves alone. */
  predicate PodsSettled(q: Fields)
    requires QueryShaped(q)
  {
    PruneOrKeep(q) == q
  }

  /** After the pods step, the pods step has nothing more to do. */
  lemma PruneSettles(q: Fields)
    requires QueryShaped(q)
    ensures PodsSettled(PruneOrKeep(q))
  {
    if PruneQueryPods(q, PodKeys).Success? {
      var p := PruneOrKeep(q);
      PodsKeyKept();
      PrunedPodsStable(PodsOf(q), PodKeys);
      var v := JArr(PrunedPods(PodsOf(q), PodKeys).value);
      assert PruneQueryPods(p, PodKeys) == Success(Put(p, PodsKey, v));
      PutSame(p, PodsKey, v);
    }
  }

  /** Whether the pods step has anything to do depends on the pods entry
      alone. */
  lemma SettledByPodsField(q: Fields, q': Fields)
    requires QueryShaped(q) && QueryShaped(q') && PodsSettled(q)
    requires Get(q', PodsKey) == Get(q, PodsKey)
    ensures PodsSettled(q')
  {
    if PruneQueryPods(q, PodKeys).Success? {
      var v := JArr(PrunedPods(PodsOf(q), PodKeys).value);
      PutSame(q', PodsKey, v);
    }
  }

  lemma CleanQueryIdempotent(q: Fields)
    requires QueryShaped(q)
    ensures CleanQuery(CleanQuery(q)) == CleanQuery(q)
  {
    PodsKeyKept();
    var q1 := DeleteAll(q, TopLevelKeys);
    var p := PruneOrKeep(q1);
    var c := CleanQuery(q);
    assert c == Delete(p, AssumptionsKey);
    PruneSettles(q1);
    SettledByPodsField(p, c);
    assert DeleteAll(c, TopLevelKeys) == c;
  }

  /** Cleaning a cleaned response changes nothing. */
  lemma CleanIdempotent(resp: Json)
    requires WellShaped(resp)
    ensures Clean(Clean(resp)) == Clean(resp)
  {
    CleanMatchesSpec(resp);
    CleanMatchesSpec(Clean(resp));
    if HasKey(resp.fields, QueryResultKey) {
      var c := CleanQuery(QueryFields(resp));
      PutGet(resp.fields, QueryResultKey, JObj(c));
      CleanQueryIdempotent(QueryFields(resp));
      PutPut(resp.fields, QueryResultKey, JObj(c), JObj(c));
    }
  }
}

=== FILE: wrappers.dfy ===
/** Failure-compatible wrappers shared by the model: an optional value and a
    value-or-error result, both usable with `:-`. */
module Wrappers {

  datatype Option<+T> = None | Some(value: T) {

    predicate IsFailure() {
      None?
    }

    function PropagateFailure<U>(): Option<U>
      requires None?
    {
      None
    }

    function Extract(): T
      requires Some?
    {
      value
    }
  }

  datatype Result<+R, +E> = Success(value: R) | Failure(error: E) {

    predicate IsFailure() {
      Failure?
    }

    function PropagateFailure<U>(): Result<U, E>
      requires Failure?
    {
      Failure(error)
    }

    function Extract(): R
      requires Success?
    {
      value
    }
  }
}
